=== FILE: README.md ===
# BigQuery-export GCS file input plugin — lifecycle model

A Dafny model of the Embulk file input plugin `BigqueryExportGcsFileInputPlugin`.
The plugin exports a BigQuery table or query result to Google Cloud Storage.
It lists the exported objects and gives each one to a parallel work unit as a byte stream.
After the run it deletes the local staging file of every unit that succeeded.

The model is a set of pure functions that return an **effect trace**: the list of
observable actions the plugin issues, in order. The actions are `ParseUri`, `Extract`,
`WriteSchema`, `List`, `SetFiles`, `Run(n)`, `Delete(path)` and `LogError(site)`.
The properties are stated over that trace and over the task the transaction stores.

The helper class `BigqueryExportUtils` is not part of this model. Its operations are
uninterpreted total functions collected in the datatype `ExportUtils.Utils`:
`parseGcsUri`, `extractBigqueryToGcs`, `getFileListFromGcs`, `getFullPath` and
`openInputStream`. Every property holds for every choice of these functions.

Modules, following the plugin's structure:

- `Wrappers`: `Option` (a nullable reference) and `Result` (a call that may throw).
- `Tasks`: the plugin task, schema, task report and config diff.
- `ExportUtils`: the outcomes of the helper operations, which are not modelled, and the `Utils` record.
- `Trace`: effects, their lifecycle phases, and facts about traces.
- `Transactions`: `transaction`, `processTransactionAndSetTask`, `extractBigqueryToGcs`,
  `writeSchemaFileIfSpecified`, `listFilesOfGcs`, `resume`.
- `FileInput`: `open` and the `commit`/`abort` of the unit it returns.
- `Reconciliation`: `cleanup`.
- `Lifecycle`: one job as the framework drives it: transaction, then the runner, then cleanup.

Where the Java dereferences a null, the model returns an explicit abort or error instead.
This happens for a null schema after a failed export (line 153) and a null file list after a
failed listing (line 142). It also happens in `open` and `cleanup` when `files.get(i)`
is out of range or the list is null.

## Model

| member | source | states |
|---|---|---|
| Transactions.Located | src/main/java/org/embulk/input/bigquery_export_gcs/BigqueryExportGcsFileInputPlugin.java:149 | decomposing the URI sets the task's location to what `parseGcsUri` yields and changes no other setting |
| Transactions.ExtractBigqueryToGcs | src/main/java/org/embulk/input/bigquery_export_gcs/BigqueryExportGcsFileInputPlugin.java:170-181 | the export never throws: a schema comes back exactly when the job exported one; an error is logged exactly on a caught I/O or interrupted exception, at most once, at the I/O site for an I/O exception and at the job site for an interruption, and then the schema is absent; a null schema from the helper is passed on as absent without a log |
| Transactions.WriteSchemaFileIfSpecified | src/main/java/org/embulk/input/bigquery_export_gcs/BigqueryExportGcsFileInputPlugin.java:163-168 | one schema-file write exactly when `temp_schema_file_path` is present, none otherwise, carrying the exported schema, the configured path and the possibly absent file type |
| Transactions.ListFilesOfGcs | src/main/java/org/embulk/input/bigquery_export_gcs/BigqueryExportGcsFileInputPlugin.java:183-194 | the listing never throws: the list comes back exactly when GCS listed one; an error is logged exactly on a caught I/O exception, at most once and at the GCS site, and then the list is absent; a null list from the helper is passed on as absent without a log |
| Transactions.ProcessTransactionAndSetTask | src/main/java/org/embulk/input/bigquery_export_gcs/BigqueryExportGcsFileInputPlugin.java:147-161 | processing gets past the schema dereference exactly when the URI decomposes and the export yields a schema; it then stores exactly what the listing yields (a null list when it yields none) into the located task, changing no other setting; when it stops earlier the stored list and every setting but the location are untouched |
| Transactions.Resume | src/main/java/org/embulk/input/bigquery_export_gcs/BigqueryExportGcsFileInputPlugin.java:197-220 | the runner is invoked once, with the given task count, as the last effect, and the returned config diff is empty |
| Transactions.Transaction | src/main/java/org/embulk/input/bigquery_export_gcs/BigqueryExportGcsFileInputPlugin.java:136-145 | the task handed to the runner and to cleanup is exactly the processed task; a completed transaction has a stored list and counts one task per entry; an aborted one issues nothing beyond the processing effects |
| Transactions.ProcessedStepsInOrder | src/main/java/org/embulk/input/bigquery_export_gcs/BigqueryExportGcsFileInputPlugin.java:147-161 | URI parse, export, optional schema write, listing and storing the list happen in that phase order, each at most once, starting with the URI parse |
| Transactions.TransactionStepsInOrder | src/main/java/org/embulk/input/bigquery_export_gcs/BigqueryExportGcsFileInputPlugin.java:136-161 | over the whole transaction the steps keep their fixed order, none repeats, the runner comes last and nothing is deleted |
| Transactions.TransactionCompletes | src/main/java/org/embulk/input/bigquery_export_gcs/BigqueryExportGcsFileInputPlugin.java:136-160 | the transaction completes iff the URI decomposes, the export yields a schema and the listing yields a list; the runner is invoked iff the transaction completes |
| Transactions.CompletedTransaction | src/main/java/org/embulk/input/bigquery_export_gcs/BigqueryExportGcsFileInputPlugin.java:140-160 | a completed transaction stored the listed files, its task count is their number, `Run(count)` is its last effect, its diff is empty, and it exported, listed and stored the list before |
| Transactions.SchemaWrittenIffConfigured | src/main/java/org/embulk/input/bigquery_export_gcs/BigqueryExportGcsFileInputPlugin.java:151-168 | over the whole transaction the schema file is written iff a path is configured and the export succeeded, at most once, with the configured type (possibly absent) |
| Transactions.ExportFailureStopsBeforeListing | src/main/java/org/embulk/input/bigquery_export_gcs/BigqueryExportGcsFileInputPlugin.java:151-157 | after an export that yields no schema the transaction aborts on the null schema: no schema write, no listing, no stored list, no run; the last effect is the matching error log for a caught exception, and the export itself for a null schema |
| Transactions.ListFailureAbortsBeforeRun | src/main/java/org/embulk/input/bigquery_export_gcs/BigqueryExportGcsFileInputPlugin.java:157-159 | after a listing that yields no list a null list is stored and the transaction aborts before the runner; the store is the last effect, preceded by the error log for a caught exception and by the listing itself for a null list |
| Transactions.UnparsableUriStopsBeforeExport | src/main/java/org/embulk/input/bigquery_export_gcs/BigqueryExportGcsFileInputPlugin.java:149 | a URI that cannot be decomposed stops the transaction before the export is submitted |
| FileInput.Open | src/main/java/org/embulk/input/bigquery_export_gcs/BigqueryExportGcsFileInputPlugin.java:251-262 | `open(i)` succeeds exactly for the indexes of the stored list and then reads exactly `files[i]`; any other index fails: with `FilesNotSet` when no list is stored, otherwise with an index error carrying the index |
| FileInput.Commit | src/main/java/org/embulk/input/bigquery_export_gcs/BigqueryExportGcsFileInputPlugin.java:267-271 | a unit's commit yields an empty report |
| FileInput.Abort | src/main/java/org/embulk/input/bigquery_export_gcs/BigqueryExportGcsFileInputPlugin.java:263-265 | a unit's abort issues no effect |
| FileInput.CommittedReports | src/main/java/org/embulk/input/bigquery_export_gcs/BigqueryExportGcsFileInputPlugin.java:262-271 | committing every opened unit gives one empty report per listed object |
| Reconciliation.ReconcileOne | src/main/java/org/embulk/input/bigquery_export_gcs/BigqueryExportGcsFileInputPlugin.java:230-244 | reconciling report `i` deletes iff the report is empty, the staging path of list entry `i`; a non-empty report is only logged as not empty |
| Reconciliation.CleanupFrom | src/main/java/org/embulk/input/bigquery_export_gcs/BigqueryExportGcsFileInputPlugin.java:229-245 | walking the reports from an index onwards issues one effect per report, in index order, and stops with an error at the first empty report that has no list entry, exactly when such a report exists |
| Reconciliation.Cleanup | src/main/java/org/embulk/input/bigquery_export_gcs/BigqueryExportGcsFileInputPlugin.java:222-247 | cleanup raises iff some empty report has no list entry; with a list at least as long as the reports it never raises |
| Reconciliation.CleanupEffectsAreLast | src/main/java/org/embulk/input/bigquery_export_gcs/BigqueryExportGcsFileInputPlugin.java:229-245 | cleanup only deletes staging files and logs errors; it issues no other effect |
| Reconciliation.DeleteIffEmptyReport | src/main/java/org/embulk/input/bigquery_export_gcs/BigqueryExportGcsFileInputPlugin.java:229-244 | with `|reports| <= |files|`, effect `i` is a delete iff report `i` is empty; the delete targets `getFullPath(files[i])`; a non-empty report gives only an error log |
| Reconciliation.DeletesFollowIndexOrder | src/main/java/org/embulk/input/bigquery_export_gcs/BigqueryExportGcsFileInputPlugin.java:229-237 | the deleted paths are the staging paths of the enumerated empty-report indexes; that enumeration is strictly ascending and contains every empty report's index |
| Reconciliation.AllEmptyDeletesAll | src/main/java/org/embulk/input/bigquery_export_gcs/BigqueryExportGcsFileInputPlugin.java:229-237 | when every report is empty, cleanup deletes the staging path of every reported list entry, in list order |
| Lifecycle.JobStepsInOrder | src/main/java/org/embulk/input/bigquery_export_gcs/BigqueryExportGcsFileInputPlugin.java:136-145 | over a whole job no effect goes back to an earlier phase and no step repeats, so every delete comes after the run, which comes after storing the list |
| Lifecycle.AbortedJobDeletesNothing | src/main/java/org/embulk/input/bigquery_export_gcs/BigqueryExportGcsFileInputPlugin.java:140-144 | a job whose transaction aborts runs no unit and deletes nothing |
| Lifecycle.TransactionDeletesNothing | src/main/java/org/embulk/input/bigquery_export_gcs/BigqueryExportGcsFileInputPlugin.java:136-161 | the transaction never deletes a file; deletes happen only in cleanup |
| Lifecycle.JobReconcilesEveryReport | src/main/java/org/embulk/input/bigquery_export_gcs/BigqueryExportGcsFileInputPlugin.java:229-232 | if the runner returns at most one report per listed object, cleanup reconciles every report without raising, one effect per report |
| Lifecycle.CommittedJobDeletesEveryListedFile | src/main/java/org/embulk/input/bigquery_export_gcs/BigqueryExportGcsFileInputPlugin.java:229-237 | if every unit is opened and committed, the job deletes the staging file of every listed object, in listing order, and nothing else |
| Lifecycle.EmptyListingCompletesWithoutCleanup | src/main/java/org/embulk/input/bigquery_export_gcs/BigqueryExportGcsFileInputPlugin.java:142-144 | an export that lists no object completes with zero work units and ends with `Run(0)`; given that the runner returns no report for zero units, cleanup raises nothing and the job deletes nothing |

## Left out

- `BigqueryExportUtils`: URI decomposition, export-job submission and polling, GCS listing and pagination, stream opening and decompression, schema serialisation and the staging-path construction. Its file is not part of this model, so no claim is made about pagination, sort order, gzip or path shape.
- `parseGcsUri` is modelled as possibly rejecting the URI. This over-approximates the helper, which is not modelled; the task declares setters for the bucket and the blob-name prefix (lines 113 and 116), which the helper is expected to call; the model folds them into one `gcsLocation` field.
- Task fields that the helpers, which are not modelled, set during export, such as the work table and temp name, are not modelled; the export leaves the task unchanged in the model.
- Unchecked exceptions from the helpers, and exceptions from `writeSchemaFile`, are not modelled. Only the checked exceptions the plugin catches are modelled.
- `guess` and `GuessExecutor`: framework glue.
- `loadConfig`, `dump`, `loadTask` and the `@ConfigDefault` values: configuration serialisation belongs to the framework. A task is given directly as a value.
- The buffering in `InputStreamTransactionalFileInput`, and `BufferAllocator`.
- Parallel execution inside `control.run`. The runner is a function from task and task count to the successful units' reports.
- What `File.delete()` does on disk, and its ignored return value. Only the issued delete is recorded. Re-running cleanup issues the same deletes and cannot raise through them.
- Cleanup's unused `taskCount` parameter.
- Info-level log lines, and the content of error logs. The model records only which error site logged.
- The commented-out `last_path` config diff and the commented-out GCS object and BigQuery temp-table deletion (lines 205-217, 239-241).
- Cleanup returns no task, so it cannot change the stored file list; this holds by construction and is not stated as a separate property.

=== FILE: cleanup.dfy ===
/** Cleanup reconciliation: the reports are walked in index order; an empty
    report deletes the local staging file of the same index, a non-empty one
    is only logged as an error. */
module Reconciliation {
  import opened Wrappers
  import opened Tasks
  import opened ExportUtils
  import opened Trace

  /** A cleanup walk: its effects, and the lookup error that stopped it at an
      empty report whose index has no list entry, if any. */
  datatype CleanupRun = CleanupRun(trace: seq<Effect>, error: Option<FileLookupError>)

  /** Report `i` can be reconciled: it is non-empty, or its index has a list entry. */
  predicate Reconcilable(task: PluginTask, reports: seq<TaskReport>, i: nat)
    requires i < |reports|
  {
    reports[i].IsEmpty() ==> task.files.Some? && i < |task.files.value|
  }

  /** The local staging path of list entry `i`. */
  function StagingPath(u: Utils, task: PluginTask, i: nat): string
    requires task.files.Some? && i < |task.files.value|
  {
    u.getFullPath(task, task.files.value[i])
  }

  /** What reconciling report `i` does: an empty report deletes the staging
      file of list entry `i`, any other report is only logged. */
  function ReconcileOne(u: Utils, task: PluginTask, reports: seq<TaskReport>, i: nat): (e: Effect)
    requires i < |reports| && Reconcilable(task, reports, i)
    ensures e.Delete? <==> reports[i].IsEmpty()
    ensures e.Delete? ==> e.path == u.getFullPath(task, task.files.value[i])
    ensures !e.Delete? ==> e == LogError(DatasourceNotEmpty)
  {
    if reports[i].IsEmpty() then Delete(StagingPath(u, task, i))
    else LogError(DatasourceNotEmpty)
  }

  /** `r` is the outcome of reconciling `reports[from..]` in index order: one
      effect per report until the first report that cannot be reconciled,
      where the walk stops with an error. */
  ghost predicate ReconciledFrom(u: Utils, task: PluginTask, reports: seq<TaskReport>, from: nat, r: CleanupRun)
  {
    var stop := from + |r.trace|;
    && stop <= |reports|
    && (forall j :: 0 <= j < |r.trace| ==>
          Reconcilable(task, reports, from + j) && r.trace[j] == ReconcileOne(u, task, reports, from + j))
    && (r.error.None? <==> stop == |reports|)
    && (r.error.Some? ==>
          && !Reconcilable(task, reports, stop)
          && r.error.value == (if task.files.None? then FilesNotSet else IndexOutOfBounds(stop)))
  }

  function CleanupFrom(u: Utils, task: PluginTask, reports: seq<TaskReport>, from: nat): (r: CleanupRun)
    requires from <= |reports|
    ensures ReconciledFrom(u, task, reports, from, r)
    ensures r.error.None? <==> forall i :: from <= i < |reports| ==> Reconcilable(task, reports, i)
    decreases |reports| - from
  {
    if from == |reports| then CleanupRun([], None)
    else if !Reconcilable(task, reports, from) then
      CleanupRun([], Some(if task.files.None? then FilesNotSet else IndexOutOfBounds(from)))
    else
      var rest := CleanupFrom(u, task, reports, from + 1);
      var r := CleanupRun([ReconcileOne(u, task, reports, from)] + rest.trace, rest.error);
      ReconciledCons(u, task, reports, from, rest, r);
      r
  }

  /** Reconciling report `from` in front of a reconciled walk from `from + 1`
      gives a reconciled walk from `from`. */
  lemma ReconciledCons(u: Utils, task: PluginTask, reports: seq<TaskReport>, from: nat,
                       rest: CleanupRun, r: CleanupRun)
    requires from < |reports| && Reconcilable(task, reports, from)
    requires ReconciledFrom(u, task, reports, from + 1, rest)
    requires (rest.error.None? <==> forall i :: from + 1 <= i < |reports| ==> Reconcilable(task, reports, i))
    requires r == CleanupRun([ReconcileOne(u, task, reports, from)] + rest.trace, rest.error)
    ensures ReconciledFrom(u, task, reports, from, r)
    ensures r.error.None? <==> forall i :: from <= i < |reports| ==> Reconcilable(task, reports, i)
  {
    forall j | 0 <= j < |r.trace|
      ensures Reconcilable(task, reports, from + j) && r.trace[j] == ReconcileOne(u, task, reports, from + j)
    {
      if j > 0 {
        assert r.trace[j] == rest.trace[j - 1];
        assert Reconcilable(task, reports, from + 1 + (j - 1));
      }
    }
  }

  /** The plugin's cleanup over the successful units' reports. */
  function Cleanup(u: Utils, task: PluginTask, reports: seq<TaskReport>): (r: CleanupRun)
    ensures ReconciledFrom(u, task, reports, 0, r)
    ensures r.error.None? <==> forall i :: 0 <= i < |reports| ==> Reconcilable(task, reports, i)
    ensures task.files.Some? && |reports| <= |task.files.value| ==> r.error.None?
  {
    var r := CleanupFrom(u, task, reports, 0);
    assert r.error.Some? ==> !Reconcilable(task, reports, |r.trace|);
    r
  }

  // ---------------------------------------------------------------------
  // Properties of cleanup
  // ---------------------------------------------------------------------

  /** Cleanup only deletes and logs: every effect it issues belongs to the
      last phase and none is a lifecycle step. */
  lemma CleanupEffectsAreLast(u: Utils, task: PluginTask, reports: seq<TaskReport>)
    ensures var c := Cleanup(u, task, reports);
      && (forall i :: 0 <= i < |c.trace| ==> c.trace[i].Delete? || c.trace[i] == LogError(DatasourceNotEmpty))
      && Sequenced(c.trace) && AllAtLeast(c.trace, 6) && AllAtMost(c.trace, 6)
  {
    var t := Cleanup(u, task, reports).trace;
    forall i | 0 <= i < |t|
      ensures t[i].Delete? || t[i] == LogError(DatasourceNotEmpty)
    {
      CleanupAt(u, task, reports, i);
    }
    assert forall i :: 0 <= i < |t| ==> Phase(t[i]) == 6 && !IsStep(t[i]);
  }

  // ---------------------------------------------------------------------
  // Order of the deletes
  // ---------------------------------------------------------------------

  /** The indexes of the empty reports among `reports[from..]`, ascending. */
  function EmptyIndicesFrom(reports: seq<TaskReport>, from: nat): (idx: seq<nat>)
    requires from <= |reports|
    ensures forall k :: 0 <= k < |idx| ==> from <= idx[k] < |reports| && reports[idx[k]].IsEmpty()
    decreases |reports| - from
  {
    if from == |reports| then []
    else (if reports[from].IsEmpty() then [from] else []) + EmptyIndicesFrom(reports, from + 1)
  }

  predicate Ascending(idx: seq<nat>) {
    forall k, l :: 0 <= k < l < |idx| ==> idx[k] < idx[l]
  }

  /** The empty reports' indexes are enumerated in strictly ascending order. */
  lemma {:induction false} EmptyIndicesAscending(reports: seq<TaskReport>, from: nat)
    requires from <= |reports|
    ensures Ascending(EmptyIndicesFrom(reports, from))
    decreases |reports| - from
  {
    if from < |reports| {
      EmptyIndicesAscending(reports, from + 1);
      var rest := EmptyIndicesFrom(reports, from + 1);
      if reports[from].IsEmpty() {
        var idx := EmptyIndicesFrom(reports, from);
        assert idx == [from] + rest;
        forall k, l | 0 <= k < l < |idx| ensures idx[k] < idx[l] {
          assert idx[l] == rest[l - 1];
          assert from + 1 <= rest[l - 1];
          if k > 0 {
            assert idx[k] == rest[k - 1];
            assert Ascending(rest);
          }
        }
      } else {
        assert EmptyIndicesFrom(reports, from) == rest;
      }
    }
  }

  /** When every report is empty, every index is enumerated, in order. */
  lemma {:induction false} AllEmptyIndices(reports: seq<TaskReport>, from: nat)
    requires from <= |reports|
    requires forall i :: from <= i < |reports| ==> reports[i].IsEmpty()
    ensures var idx := EmptyIndicesFrom(reports, from);
      |idx| == |reports| - from && forall k :: 0 <= k < |idx| ==> idx[k] == from + k
    decreases |reports| - from
  {
    if from < |reports| {
      AllEmptyIndices(reports, from + 1);
      var rest := EmptyIndicesFrom(reports, from + 1);
      var idx := EmptyIndicesFrom(reports, from);
      assert idx == [from] + rest;
      forall k | 0 <= k < |idx| ensures idx[k] == from + k {
        if k > 0 {
          assert idx[k] == rest[k - 1];
        }
      }
    }
  }

  /** Every empty report's index is enumerated. */
  lemma {:induction false} EmptyIndicesComplete(reports: seq<TaskReport>, from: nat, i: nat)
    requires from <= i < |reports| && reports[i].IsEmpty()
    ensures i in EmptyIndicesFrom(reports, from)
    decreases |reports| - from
  {
    var rest := EmptyIndicesFrom(reports, from + 1);
    if i == from {
      assert EmptyIndicesFrom(reports, from)[0] == from;
    } else {
      EmptyIndicesComplete(reports, from + 1, i);
      var k :| 0 <= k < |rest| && rest[k] == i;
      var idx := EmptyIndicesFrom(reports, from);
      if reports[from].IsEmpty() {
        assert idx == [from] + rest && idx[k + 1] == i;
      } else {
        assert idx == rest;
      }
    }
  }

  /** The staging paths of the given list indexes, in the given order. */
  function PathsOf(u: Utils, task: PluginTask, idx: seq<nat>): (paths: seq<string>)
    requires task.files.Some?
    requires forall k :: 0 <= k < |idx| ==> idx[k] < |task.files.value|
    ensures |paths| == |idx|
    ensures forall k :: 0 <= k < |idx| ==> paths[k] == StagingPath(u, task, idx[k])
  {
    if |idx| == 0 then []
    else [StagingPath(u, task, idx[0])] + PathsOf(u, task, idx[1..])
  }

  /** Effect `i` of cleanup is the reconciliation of report `i`. */
  lemma CleanupAt(u: Utils, task: PluginTask, reports: seq<TaskReport>, i: nat)
    requires i < |Cleanup(u, task, reports).trace|
    ensures i < |reports| && Reconcilable(task, reports, i)
    ensures Cleanup(u, task, reports).trace[i] == ReconcileOne(u, task, reports, i)
  {
    var r := Cleanup(u, task, reports);
    assert ReconciledFrom(u, task, reports, 0, r);
    var e := r.trace[i];
    assert Reconcilable(task, reports, 0 + i);
  }

  /** With one list entry for every report, cleanup never raises, and at every
      index it deletes the staging file of that entry exactly when the report
      is empty; otherwise it logs an error and deletes nothing. */
  lemma DeleteIffEmptyReport(u: Utils, task: PluginTask, reports: seq<TaskReport>)
    requires task.files.Some? && |reports| <= |task.files.value|
    ensures var r := Cleanup(u, task, reports);
      && r.error.None?
      && |r.trace| == |reports|
      && forall i :: 0 <= i < |reports| ==>
           && (r.trace[i].Delete? <==> reports[i].IsEmpty())
           && (reports[i].IsEmpty() ==> r.trace[i].path == u.getFullPath(task, task.files.value[i]))
           && (!reports[i].IsEmpty() ==> r.trace[i] == LogError(DatasourceNotEmpty))
  {
    var r := Cleanup(u, task, reports);
    forall i | 0 <= i < |reports|
      ensures r.trace[i] == ReconcileOne(u, task, reports, i)
    {
      assert r.trace[0 + i] == ReconcileOne(u, task, reports, 0 + i);
    }
  }

  /** The deletes of a cleanup walk are the staging files of the empty
      reports, in increasing index order. */
  lemma {:induction false} DeletesFollowIndexOrderFrom(u: Utils, task: PluginTask, reports: seq<TaskReport>, from: nat)
    requires task.files.Some? && |reports| <= |task.files.value| && from <= |reports|
    ensures Deletes(CleanupFrom(u, task, reports, from).trace)
         == PathsOf(u, task, EmptyIndicesFrom(reports, from))
    decreases |reports| - from
  {
    if from < |reports| {
      var here := DeletedAt(u, task, reports, from);
      var deleted := Deletes(CleanupFrom(u, task, reports, from + 1).trace);
      var paths := PathsOf(u, task, EmptyIndicesFrom(reports, from + 1));
      CleanupFromStep(u, task, reports, from);
      EmptyIndicesStep(u, task, reports, from);
      DeletesFollowIndexOrderFrom(u, task, reports, from + 1);
      assert deleted == paths;
      calc {
        Deletes(CleanupFrom(u, task, reports, from).trace);
        here + deleted;
        here + paths;
        PathsOf(u, task, EmptyIndicesFrom(reports, from));
      }
    } else {
      assert CleanupFrom(u, task, reports, from).trace == [];
      assert EmptyIndicesFrom(reports, from) == [];
    }
  }

  /** The staging path report `from` contributes to the deletes, if any. */
  function DeletedAt(u: Utils, task: PluginTask, reports: seq<TaskReport>, from: nat): seq<string>
    requires task.files.Some? && from < |reports| <= |task.files.value|
  {
    if reports[from].IsEmpty() then [StagingPath(u, task, from)] else []
  }

  lemma CleanupFromStep(u: Utils, task: PluginTask, reports: seq<TaskReport>, from: nat)
    requires task.files.Some? && from < |reports| <= |task.files.value|
    ensures Deletes(CleanupFrom(u, task, reports, from).trace)
         == DeletedAt(u, task, reports, from) + Deletes(CleanupFrom(u, task, reports, from + 1).trace)
  {
    var rest := CleanupFrom(u, task, reports, from + 1).trace;
    var head := ReconcileOne(u, task, reports, from);
    assert CleanupFrom(u, task, reports, from).trace == [head] + rest;
    DeletesCons(head, rest);
  }

  lemma EmptyIndicesStep(u: Utils, task: PluginTask, reports: seq<TaskReport>, from: nat)
    requires task.files.Some? && from < |reports| <= |task.files.value|
    ensures PathsOf(u, task, EmptyIndicesFrom(reports, from))
         == DeletedAt(u, task, reports, from) + PathsOf(u, task, EmptyIndicesFrom(reports, from + 1))
  {
    var restIdx := EmptyIndicesFrom(reports, from + 1);
    if reports[from].IsEmpty() {
      assert EmptyIndicesFrom(reports, from) == [from] + restIdx;
      PathsCons(u, task, from, restIdx);
    } else {
      assert EmptyIndicesFrom(reports, from) == restIdx;
    }
  }

  lemma DeletesCons(head: Effect, rest: seq<Effect>)
    ensures Deletes([head] + rest) == (if head.Delete? then [head.path] else []) + Deletes(rest)
  {
    assert ([head] + rest)[1..] == rest;
  }

  lemma PathsCons(u: Utils, task: PluginTask, i: nat, idx: seq<nat>)
    requires task.files.Some? && i < |task.files.value|
    requires forall k :: 0 <= k < |idx| ==> idx[k] < |task.files.value|
    ensures PathsOf(u, task, [i] + idx) == [StagingPath(u, task, i)] + PathsOf(u, task, idx)
  {
    assert ([i] + idx)[1..] == idx;
  }

  /** The deletes of cleanup are the staging files of the empty reports, in
      increasing index order, with every empty report's index among them. */
  lemma DeletesFollowIndexOrder(u: Utils, task: PluginTask, reports: seq<TaskReport>)
    requires task.files.Some? && |reports| <= |task.files.value|
    ensures var idx := EmptyIndicesFrom(reports, 0);
      && Deletes(Cleanup(u, task, reports).trace) == PathsOf(u, task, idx)
      && Ascending(idx)
      && forall i :: 0 <= i < |reports| && reports[i].IsEmpty() ==> i in idx
  {
    DeletesFollowIndexOrderFrom(u, task, reports, 0);
    EmptyIndicesAscending(reports, 0);
    forall i | 0 <= i < |reports| && reports[i].IsEmpty()
      ensures i in EmptyIndicesFrom(reports, 0)
    {
      EmptyIndicesComplete(reports, 0, i);
    }
  }

  /** When every report is empty, cleanup deletes the staging file of every
      list entry it has a report for, in list order. */
  lemma AllEmptyDeletesAll(u: Utils, task: PluginTask, reports: seq<TaskReport>)
    requires task.files.Some? && |reports| <= |task.files.value|
    requires forall i :: 0 <= i < |reports| ==> reports[i].IsEmpty()
    ensures Deletes(Cleanup(u, task, reports).trace)
         == seq(|reports|, i requires 0 <= i < |reports| => u.getFullPath(task, task.files.value[i]))
  {
    DeletesFollowIndexOrder(u, task, reports);
    AllEmptyIndices(reports, 0);
  }
}

=== FILE: export_utils.dfy ===
/** The helper class the plugin delegates every remote operation to. Its code
    is not part of this model, so each operation is an uninterpreted total
    function supplied by the caller; only the outcomes the plugin
    distinguishes are modelled. */
module ExportUtils {
  import opened Wrappers
  import opened Tasks

  /** How the export job ended, as the plugin sees it: a schema, a null
      schema, or one of the two checked exceptions it catches. */
  datatype ExportOutcome = Exported(schema: Schema) | ExportedNull | ExportIoError | ExportInterrupted

  /** How the GCS listing ended: the object names, a null list, or an I/O
      exception. */
  datatype ListOutcome = Listed(files: seq<string>) | ListedNull | ListIoError

  type Bytes = seq<bv8>

  datatype Utils = Utils(
    // decomposes a gs:// URI; None when it cannot be decomposed
    parseGcsUri: string -> Option<GcsLocation>,
    // submits the export job and waits for it
    extractBigqueryToGcs: PluginTask -> ExportOutcome,
    // lists the exported objects under the task's bucket and prefix
    getFileListFromGcs: PluginTask -> ListOutcome,
    // local staging path of one listed object
    getFullPath: (PluginTask, string) -> string,
    // the (decompressed) byte stream of one listed object
    openInputStream: (PluginTask, string) -> Bytes)
}

=== FILE: file_input.dfy ===
/** One work unit: task index `i` opens the `i`-th listed object, and the
    unit's commit always reports success. */
module FileInput {
  import opened Wrappers
  import opened Tasks
  import opened ExportUtils
  import opened Trace

  /** The stream handed to the downstream parser, with the object it reads. */
  datatype TransactionalFileInput = TransactionalFileInput(source: string, input: Bytes)

  /** Opens the object of task `taskIndex`; it succeeds exactly for the
      indexes of the stored list and then reads exactly that list entry. */
  function Open(u: Utils, task: PluginTask, taskIndex: int): (r: Result<TransactionalFileInput, FileLookupError>)
    ensures r.Success? <==> task.files.Some? && 0 <= taskIndex < |task.files.value|
    ensures r.Success? ==>
      && r.value.source == task.files.value[taskIndex]
      && r.value.input == u.openInputStream(task, task.files.value[taskIndex])
    ensures r.Failure? && task.files.None? ==> r.error == FilesNotSet
    ensures r.Failure? && task.files.Some? ==> r.error == IndexOutOfBounds(taskIndex)
  {
    if task.files.None? then Failure(FilesNotSet)
    else if !(0 <= taskIndex < |task.files.value|) then Failure(IndexOutOfBounds(taskIndex))
    else
      var file := task.files.value[taskIndex];
      Success(TransactionalFileInput(file, u.openInputStream(task, file)))
  }

  /** Committing a unit yields a fresh, empty report: the unit succeeded. */
  function Commit(unit: TransactionalFileInput): (report: TaskReport)
    ensures report.IsEmpty()
  {
    TaskReport(map[])
  }

  /** Aborting a unit has no effect. */
  function Abort(unit: TransactionalFileInput): (effects: seq<Effect>)
    ensures effects == []
  {
    []
  }

  /** The reports of a run in which every unit of the stored list is opened
      and committed: one empty report per listed object. */
  function CommittedReports(u: Utils, task: PluginTask): (reports: seq<TaskReport>)
    requires task.files.Some?
    ensures |reports| == |task.files.value|
    ensures forall i :: 0 <= i < |reports| ==> reports[i].IsEmpty()
  {
    seq(|task.files.value|, i requires 0 <= i < |task.files.value| => Commit(Open(u, task, i).value))
  }
}

=== FILE: lifecycle.dfy ===
/** One job as the framework drives the plugin: the transaction, then the
    framework's runner executing the work units, then cleanup over the reports
    of the successful units. */
module Lifecycle {
  import opened Wrappers
  import opened Tasks
  import opened ExportUtils
  import opened Trace
  import opened Transactions
  import opened FileInput
  import opened Reconciliation

  /** The framework's runner: given the task and the task count it runs the
      units (each through `Open` and `Commit`) and returns the reports of the
      successful ones, index-aligned. Its scheduling is not modelled. */
  type Runner = (PluginTask, nat) -> seq<TaskReport>

  datatype Job = Job(trace: seq<Effect>, outcome: Outcome, cleanupError: Option<FileLookupError>)

  function RunJob(u: Utils, config: PluginTask, runner: Runner): Job {
    var tx := Transaction(u, config);
    if tx.outcome.Aborted? then Job(tx.trace, tx.outcome, None)
    else
      var reports := runner(tx.task, tx.outcome.taskCount);
      var cleaned := Cleanup(u, tx.task, reports);
      Job(tx.trace + cleaned.trace, tx.outcome, cleaned.error)
  }

  /** Over a whole job the effects never go back to an earlier phase and no
      step repeats; in particular every delete comes after the runner, which
      comes after the file list was stored. */
  lemma JobStepsInOrder(u: Utils, config: PluginTask, runner: Runner)
    ensures Sequenced(RunJob(u, config, runner).trace)
  {
    var tx := Transaction(u, config);
    TransactionStepsInOrder(u, config);
    if tx.outcome.Completed? {
      var reports := runner(tx.task, tx.outcome.taskCount);
      CleanupEffectsAreLast(u, tx.task, reports);
      SequencedAppend(tx.trace, Cleanup(u, tx.task, reports).trace, 6);
    }
  }

  /** A job whose transaction aborts runs no unit and deletes nothing. */
  lemma AbortedJobDeletesNothing(u: Utils, config: PluginTask, runner: Runner)
    requires Transaction(u, config).outcome.Aborted?
    ensures var j := RunJob(u, config, runner);
      !Has(j.trace, RunKind) && !Has(j.trace, DeleteKind) && Deletes(j.trace) == []
  {
    var tx := Transaction(u, config);
    assert RunJob(u, config, runner).trace == tx.trace;
    assert !Has(tx.trace, RunKind) by {
      TransactionCompletes(u, config);
    }
    TransactionDeletesNothing(u, config);
  }

  /** The transaction itself never deletes: deletes belong to cleanup. */
  lemma TransactionDeletesNothing(u: Utils, config: PluginTask)
    ensures var tx := Transaction(u, config);
      !Has(tx.trace, DeleteKind) && Deletes(tx.trace) == []
  {
    TransactionStepsInOrder(u, config);
    EarlyTraceDeletesNothing(Transaction(u, config).trace, 5);
  }

  /** When the runner returns at most one report per listed object, cleanup
      reconciles every report without raising, issuing exactly one effect per
      report after the transaction's own effects. */
  lemma JobReconcilesEveryReport(u: Utils, config: PluginTask, runner: Runner)
    requires var tx := Transaction(u, config);
      tx.outcome.Completed? && |runner(tx.task, tx.outcome.taskCount)| <= tx.outcome.taskCount
    ensures var tx := Transaction(u, config);
      var j := RunJob(u, config, runner);
      && j.cleanupError.None?
      && |j.trace| == |tx.trace| + |runner(tx.task, tx.outcome.taskCount)|
  {
    TransactionCompletes(u, config);
  }

  /** When every unit is opened and committed, the job deletes the staging
      file of every listed object, in listing order, and nothing else. */
  lemma CommittedJobDeletesEveryListedFile(u: Utils, config: PluginTask, runner: Runner)
    requires var tx := Transaction(u, config);
      && tx.outcome.Completed? && tx.task.files.Some?
      && runner(tx.task, tx.outcome.taskCount) == CommittedReports(u, tx.task)
    ensures var tx := Transaction(u, config);
      var files := tx.task.files.value;
      var j := RunJob(u, config, runner);
      && j.cleanupError.None?
      && Deletes(j.trace) == seq(|files|, i requires 0 <= i < |files| => u.getFullPath(tx.task, files[i]))
  {
    var tx := Transaction(u, config);
    TransactionDeletesNothing(u, config);
    var reports := CommittedReports(u, tx.task);
    var cleaned := Cleanup(u, tx.task, reports);
    assert RunJob(u, config, runner).trace == tx.trace + cleaned.trace;
    DeletesAppend(tx.trace, cleaned.trace);
    AllEmptyDeletesAll(u, tx.task, reports);
  }

  /** An export that lists no object is not an error: the job completes with
      zero work units and, given no reports, deletes nothing. */
  lemma EmptyListingCompletesWithoutCleanup(u: Utils, config: PluginTask, runner: Runner)
    requires Located(u, config).gcsLocation.Some?
    requires u.extractBigqueryToGcs(Located(u, config)).Exported?
    requires u.getFileListFromGcs(Located(u, config)) == Listed([])
    requires runner(Transaction(u, config).task, 0) == []
    ensures var j := RunJob(u, config, runner);
      && j.outcome.Completed? && j.outcome.taskCount == 0
      && j.cleanupError.None?
      && j.trace[|j.trace| - 1] == Run(0)
      && Deletes(j.trace) == []
  {
    var tx := Transaction(u, config);
    assert tx.outcome.Completed? by {
      TransactionCompletes(u, config);
    }
    assert tx.outcome.taskCount == 0 && tx.trace[|tx.trace| - 1] == Run(0) by {
      CompletedTransaction(u, config);
    }
    TransactionDeletesNothing(u, config);
    var cleaned := Cleanup(u, tx.task, []);
    assert cleaned.trace == [] && cleaned.error.None?;
    assert RunJob(u, config, runner).trace == tx.trace + cleaned.trace;
    assert tx.trace + cleaned.trace == tx.trace;
  }
}

=== FILE: tasks.dfy ===
/** The plugin's data model: the task configuration and the values that flow
    between the plugin and the Embulk framework. */
module Tasks {
  import opened Wrappers

  /** The (bucket, object-name prefix) pair a `gs://` URI decomposes into. */
  datatype GcsLocation = GcsLocation(bucket: string, blobNamePrefix: string)

  datatype Column = Column(name: string, columnType: string)

  /** The schema of the exported table, as read back from the export job. */
  datatype Schema = Schema(columns: seq<Column>)

  /** The settings the plugin passes through to the helpers: where and what
      to export, and the local staging directory. */
  datatype ExportConfig = ExportConfig(
    project: string,
    jsonKeyfile: string,
    dataset: string,
    table: Option<string>,
    query: Option<string>,
    queryCache: bool,
    fileFormat: Option<string>,
    compression: Option<string>,
    useLegacySql: bool,
    tempDataset: Option<string>,
    tempLocalPath: string)

  /** The plugin task: the user's configuration plus the state the transaction
      stores into it. A `None` stands for a Java `null`/absent value. */
  datatype PluginTask = PluginTask(
    exportConfig: ExportConfig,
    gcsUri: string,
    tempSchemaFilePath: Option<string>,
    tempSchemaFileType: Option<string>,
    // set by the transaction: the listed object names, one per work unit
    files: Option<seq<string>>,
    // set when the GCS URI is decomposed (bucket and blob-name prefix)
    gcsLocation: Option<GcsLocation>)

  /** Why looking up list entry `index` of the task raises: the task carries
      no file list (a null dereference), or the index is not one of its
      positions. Both `open` and cleanup look entries up this way. */
  datatype FileLookupError = FilesNotSet | IndexOutOfBounds(index: int)

  /** A per-unit completion report; an empty report means the unit succeeded. */
  datatype TaskReport = TaskReport(entries: map<string, string>) {
    predicate IsEmpty() {
      |entries| == 0
    }
  }

  /** The configuration difference a transaction hands back to the framework. */
  datatype ConfigDiff = ConfigDiff(entries: map<string, string>)
}

=== FILE: trace.dfy ===
/** The observable effects of the plugin, in the order it issues them, and
    the facts about effect traces that the lifecycle properties are built on. */
module Trace {
  import opened Wrappers
  import opened Tasks

  /** Which of the plugin's error log lines was written. */
  datatype ErrorSite = BigqueryIo | BigqueryJob | GcsIo | DatasourceNotEmpty

  datatype Effect =
    | ParseUri(uri: string)
    | Extract
    | WriteSchema(schema: Schema, fileType: Option<string>, path: string)
    | List
    | SetFiles
    | Run(taskCount: nat)
    | Delete(path: string)
    | LogError(site: ErrorSite)

  datatype Kind = ParseUriKind | ExtractKind | WriteSchemaKind | ListKind | SetFilesKind
                | RunKind | DeleteKind | LogErrorKind

  function KindOf(e: Effect): Kind {
    match e
    case ParseUri(_) => ParseUriKind
    case Extract => ExtractKind
    case WriteSchema(_, _, _) => WriteSchemaKind
    case List => ListKind
    case SetFiles => SetFilesKind
    case Run(_) => RunKind
    case Delete(_) => DeleteKind
    case LogError(_) => LogErrorKind
  }

  /** The lifecycle phase an effect belongs to. An error log belongs to the
      step that wrote it. */
  function Phase(e: Effect): nat {
    match e
    case ParseUri(_) => 0
    case Extract => 1
    case WriteSchema(_, _, _) => 2
    case List => 3
    case SetFiles => 4
    case Run(_) => 5
    case Delete(_) => 6
    case LogError(site) =>
      match site
      case BigqueryIo => 1
      case BigqueryJob => 1
      case GcsIo => 3
      case DatasourceNotEmpty => 6
  }

  /** The lifecycle steps proper; deletes and error logs may repeat. */
  predicate IsStep(e: Effect) {
    !e.Delete? && !e.LogError?
  }

  /** The effects of a trace never go back to an earlier phase, and no step
      runs twice: a later step always belongs to a later phase. */
  predicate Sequenced(t: seq<Effect>) {
    forall i, j :: 0 <= i < j < |t| ==>
      && Phase(t[i]) <= Phase(t[j])
      && (IsStep(t[i]) && IsStep(t[j]) ==> Phase(t[i]) < Phase(t[j]))
  }

  predicate AllAtMost(t: seq<Effect>, p: nat) {
    forall i :: 0 <= i < |t| ==> Phase(t[i]) <= p
  }

  predicate AllAtLeast(t: seq<Effect>, p: nat) {
    forall i :: 0 <= i < |t| ==> p <= Phase(t[i])
  }

  /** Every step of `t` belongs to a phase before `p`. */
  predicate StepsBefore(t: seq<Effect>, p: nat) {
    forall i :: 0 <= i < |t| && IsStep(t[i]) ==> Phase(t[i]) < p
  }

  predicate Has(t: seq<Effect>, k: Kind) {
    exists i :: 0 <= i < |t| && KindOf(t[i]) == k
  }

  lemma HasAppend(a: seq<Effect>, b: seq<Effect>, k: Kind)
    ensures Has(a + b, k) <==> Has(a, k) || Has(b, k)
  {
    if Has(a + b, k) {
      var i :| 0 <= i < |a + b| && KindOf((a + b)[i]) == k;
      if i >= |a| {
        assert KindOf(b[i - |a|]) == k;
      }
    }
    if Has(a, k) {
      var i :| 0 <= i < |a| && KindOf(a[i]) == k;
      assert (a + b)[i] == a[i];
    }
    if Has(b, k) {
      var i :| 0 <= i < |b| && KindOf(b[i]) == k;
      assert (a + b)[|a| + i] == b[i];
    }
  }

  /** At most one effect of kind `k` occurs in `t`. */
  predicate AtMostOnce(t: seq<Effect>, k: Kind) {
    forall i, j :: 0 <= i < |t| && 0 <= j < |t| && KindOf(t[i]) == k && KindOf(t[j]) == k ==> i == j
  }

  /** In a sequenced trace every step happens at most once. */
  lemma SequencedStepsOnce(t: seq<Effect>, k: Kind)
    requires Sequenced(t)
    requires k != DeleteKind && k != LogErrorKind
    ensures AtMostOnce(t, k)
  {
    forall i, j | 0 <= i < |t| && 0 <= j < |t| && KindOf(t[i]) == k && KindOf(t[j]) == k
      ensures i == j
    {
      assert IsStep(t[i]) && IsStep(t[j]) && Phase(t[i]) == Phase(t[j]);
    }
  }

  /** The paths of the deletes in `t`, in trace order. */
  function Deletes(t: seq<Effect>): (paths: seq<string>)
    ensures |paths| <= |t|
  {
    if |t| == 0 then []
    else (if t[0].Delete? then [t[0].path] else []) + Deletes(t[1..])
  }

  /** A trace without deletes deletes no path. */
  lemma {:induction false} NoDeletes(t: seq<Effect>)
    requires !Has(t, DeleteKind)
    ensures Deletes(t) == []
  {
    if |t| > 0 {
      assert KindOf(t[0]) != DeleteKind;
      assert !Has(t[1..], DeleteKind) by {
        forall i | 0 <= i < |t[1..]| ensures KindOf(t[1..][i]) != DeleteKind {
          assert t[1..][i] == t[i + 1];
        }
      }
      NoDeletes(t[1..]);
    }
  }

  /** A trace that stays before the cleanup phase deletes nothing. */
  lemma EarlyTraceDeletesNothing(t: seq<Effect>, p: nat)
    requires AllAtMost(t, p) && p < 6
    ensures !Has(t, DeleteKind) && Deletes(t) == []
  {
    assert !Has(t, DeleteKind);
    NoDeletes(t);
  }

  /** A trace that stays before the runner phase never runs the units. */
  lemma EarlyTraceRunsNothing(t: seq<Effect>, p: nat)
    requires AllAtMost(t, p) && p < 5
    ensures !Has(t, RunKind)
  {
  }

  lemma {:induction false} DeletesAppend(a: seq<Effect>, b: seq<Effect>)
    ensures Deletes(a + b) == Deletes(a) + Deletes(b)
  {
    if |a| == 0 {
      assert a + b == b;
    } else {
      var head := if a[0].Delete? then [a[0].path] else [];
      assert (a + b)[0] == a[0];
      assert (a + b)[1..] == a[1..] + b;
      DeletesAppend(a[1..], b);
      calc {
        Deletes(a + b);
        head + Deletes(a[1..] + b);
        head + (Deletes(a[1..]) + Deletes(b));
        (head + Deletes(a[1..])) + Deletes(b);
      }
    }
  }

  /** A sequenced trace whose steps all come before phase `p`, followed by a
      sequenced trace starting at phase `p`, is sequenced. */
  lemma SequencedAppend(a: seq<Effect>, b: seq<Effect>, p: nat)
    requires Sequenced(a) && Sequenced(b)
    requires AllAtMost(a, p) && StepsBefore(a, p) && AllAtLeast(b, p)
    ensures Sequenced(a + b)
  {
    var t := a + b;
    forall i, j | 0 <= i < j < |t|
      ensures Phase(t[i]) <= Phase(t[j])
      ensures IsStep(t[i]) && IsStep(t[j]) ==> Phase(t[i]) < Phase(t[j])
    {
      if j < |a| {
        assert t[i] == a[i] && t[j] == a[j];
      } else if i >= |a| {
        assert t[i] == b[i - |a|] && t[j] == b[j - |a|];
      } else {
        assert t[i] == a[i] && t[j] == b[j - |a|];
      }
    }
  }
}

=== FILE: transaction.dfy ===
/** The plugin's transaction: decompose the GCS URI, run the export, write the
    schema side file when one is configured, list the exported objects, store
    them in the task, and hand one work unit per object to the framework. */
module Transactions {
  import opened Wrappers
  import opened Tasks
  import opened ExportUtils
  import opened Trace

  /** Why a transaction stops before any work unit is run. A null schema or a
      null file list is dereferenced by the plugin, which aborts the run. */
  datatype Abort = UnparsableGcsUri | NullSchema | NullFileList

  datatype Extracted = Extracted(trace: seq<Effect>, schema: Option<Schema>)
  datatype ListedFiles = ListedFiles(trace: seq<Effect>, files: Option<seq<string>>)
  datatype Processed = Processed(trace: seq<Effect>, task: PluginTask, abort: Option<Abort>)
  datatype Resumed = Resumed(trace: seq<Effect>, diff: ConfigDiff)
  datatype Outcome = Completed(diff: ConfigDiff, taskCount: nat) | Aborted(cause: Abort)
  datatype Transacted = Transacted(trace: seq<Effect>, task: PluginTask, outcome: Outcome)

  /** The task after the GCS URI has been decomposed into bucket and prefix;
      no other setting changes. */
  function Located(u: Utils, task: PluginTask): (r: PluginTask)
    ensures r.gcsLocation == u.parseGcsUri(task.gcsUri)
    ensures r.(gcsLocation := task.gcsLocation) == task
  {
    task.(gcsLocation := u.parseGcsUri(task.gcsUri))
  }

  /** Runs the export. Neither checked exception escapes: each is logged and
      turned into an absent schema. A null schema from the helper is passed
      on as absent without a log. */
  function ExtractBigqueryToGcs(u: Utils, task: PluginTask): (r: Extracted)
    ensures r.schema.Some? <==> u.extractBigqueryToGcs(task).Exported?
    ensures r.schema.Some? ==> r.schema.value == u.extractBigqueryToGcs(task).schema
    ensures |r.trace| > 0 && r.trace[0] == Extract
    ensures Has(r.trace, LogErrorKind) <==>
      u.extractBigqueryToGcs(task).ExportIoError? || u.extractBigqueryToGcs(task).ExportInterrupted?
    ensures |r.trace| <= 2
    ensures forall i :: 0 <= i < |r.trace| && r.trace[i].LogError? ==>
      r.trace[i].site == (if u.extractBigqueryToGcs(task).ExportIoError? then BigqueryIo else BigqueryJob)
    ensures Sequenced(r.trace) && AllAtLeast(r.trace, 1) && AllAtMost(r.trace, 1)
  {
    match u.extractBigqueryToGcs(task)
    case Exported(schema) => Extracted([Extract], Some(schema))
    case ExportedNull => Extracted([Extract], None)
    case ExportIoError =>
      var t := [Extract, LogError(BigqueryIo)];
      assert KindOf(t[1]) == LogErrorKind;
      Extracted(t, None)
    case ExportInterrupted =>
      var t := [Extract, LogError(BigqueryJob)];
      assert KindOf(t[1]) == LogErrorKind;
      Extracted(t, None)
  }

  /** Writes the schema side file when, and only when, a path is configured;
      the file type handed over may be absent. */
  function WriteSchemaFileIfSpecified(schema: Schema, task: PluginTask): (w: seq<Effect>)
    ensures |w| == (if task.tempSchemaFilePath.Some? then 1 else 0)
    ensures forall i :: 0 <= i < |w| ==>
      w[i] == WriteSchema(schema, task.tempSchemaFileType, task.tempSchemaFilePath.value)
  {
    if task.tempSchemaFilePath.Some? then
      [WriteSchema(schema, task.tempSchemaFileType, task.tempSchemaFilePath.value)]
    else []
  }

  /** Lists the exported objects. An I/O exception is logged and turned into
      an absent list; a null list from the helper is passed on as absent
      without a log. */
  function ListFilesOfGcs(u: Utils, task: PluginTask): (r: ListedFiles)
    ensures r.files.Some? <==> u.getFileListFromGcs(task).Listed?
    ensures r.files.Some? ==> r.files.value == u.getFileListFromGcs(task).files
    ensures |r.trace| > 0 && r.trace[0] == List
    ensures Has(r.trace, LogErrorKind) <==> u.getFileListFromGcs(task).ListIoError?
    ensures |r.trace| <= 2
    ensures forall i :: 0 <= i < |r.trace| && r.trace[i].LogError? ==> r.trace[i].site == GcsIo
    ensures Sequenced(r.trace) && AllAtLeast(r.trace, 3) && AllAtMost(r.trace, 3)
  {
    match u.getFileListFromGcs(task)
    case Listed(files) => ListedFiles([List], Some(files))
    case ListedNull => ListedFiles([List], None)
    case ListIoError =>
      var t := [List, LogError(GcsIo)];
      assert KindOf(t[1]) == LogErrorKind;
      ListedFiles(t, None)
  }

  /** Decompose the URI, export, write the schema file, list, store the list.
      A failed export leaves a null schema that is dereferenced right away, so
      the transaction stops there. A failed listing is stored as a null list. */
  function ProcessTransactionAndSetTask(u: Utils, task: PluginTask): (r: Processed)
    ensures r.abort.None? <==>
      u.parseGcsUri(task.gcsUri).Some? && u.extractBigqueryToGcs(Located(u, task)).Exported?
    ensures r.abort.Some? ==> r.task.files == task.files
    ensures r.abort.Some? ==> r.task.(gcsLocation := task.gcsLocation) == task
    ensures r.abort.None? ==> r.task == Located(u, task).(files := r.task.files)
    ensures r.abort.None? ==>
      && (r.task.files.Some? <==> u.getFileListFromGcs(Located(u, task)).Listed?)
      && (r.task.files.Some? ==> r.task.files.value == u.getFileListFromGcs(Located(u, task)).files)
  {
    if u.parseGcsUri(task.gcsUri).None? then
      Processed([ParseUri(task.gcsUri)], task, Some(UnparsableGcsUri))
    else
      var located := Located(u, task);
      var extracted := ExtractBigqueryToGcs(u, located);
      var exported := [ParseUri(task.gcsUri)] + extracted.trace;
      if extracted.schema.None? then
        Processed(exported, located, Some(NullSchema))
      else
        var written := WriteSchemaFileIfSpecified(extracted.schema.value, located);
        var listed := ListFilesOfGcs(u, located);
        Processed(exported + written + listed.trace + [SetFiles],
                  located.(files := listed.files), None)
  }

  /** Hands the work units to the framework's runner and returns an empty
      configuration difference. */
  function Resume(taskCount: nat): (r: Resumed)
    ensures Sequenced(r.trace) && AllAtLeast(r.trace, 5) && AllAtMost(r.trace, 5)
    ensures |r.trace| > 0 && r.trace[|r.trace| - 1] == Run(taskCount)
    ensures r.diff.entries == map[]
  {
    Resumed([Run(taskCount)], ConfigDiff(map[]))
  }

  /** The whole transaction: the task count is the length of the stored list. */
  function Transaction(u: Utils, config: PluginTask): (r: Transacted)
    ensures r.outcome.Completed? ==>
      r.task.files.Some? && r.outcome.taskCount == |r.task.files.value|
    ensures r.outcome.Aborted? ==> r.trace == ProcessTransactionAndSetTask(u, config).trace
    ensures r.task == ProcessTransactionAndSetTask(u, config).task
  {
    var processed := ProcessTransactionAndSetTask(u, config);
    if processed.abort.Some? then
      Transacted(processed.trace, processed.task, Aborted(processed.abort.value))
    else if processed.task.files.None? then
      Transacted(processed.trace, processed.task, Aborted(NullFileList))
    else
      var taskCount := |processed.task.files.value|;
      var resumed := Resume(taskCount);
      Transacted(processed.trace + resumed.trace, processed.task,
                 Completed(resumed.diff, taskCount))
  }

  // ---------------------------------------------------------------------
  // Properties of the transaction
  // ---------------------------------------------------------------------

  /** Up to storing the file list, the steps run in their fixed order, each
      at most once, and nothing is run or deleted. */
  lemma ProcessedStepsInOrder(u: Utils, task: PluginTask)
    ensures var p := ProcessTransactionAndSetTask(u, task);
      && Sequenced(p.trace) && AllAtMost(p.trace, 4)
      && |p.trace| > 0 && p.trace[0] == ParseUri(task.gcsUri)
  {
    var p := ProcessTransactionAndSetTask(u, task);
    var parse := [ParseUri(task.gcsUri)];
    if u.parseGcsUri(task.gcsUri).Some? {
      var located := Located(u, task);
      var extracted := ExtractBigqueryToGcs(u, located);
      ExportedStepsInOrder(parse, extracted.trace);
      var exported := parse + extracted.trace;
      if extracted.schema.Some? {
        var written := WriteSchemaFileIfSpecified(extracted.schema.value, located);
        var listed := ListFilesOfGcs(u, located);
        assert p.trace == exported + written + listed.trace + [SetFiles];
        ListedStepsInOrder(exported, written, listed.trace);
      } else {
        assert p.trace == exported;
      }
    } else {
      assert p.trace == parse;
    }
  }

  lemma ExportedStepsInOrder(parse: seq<Effect>, extracted: seq<Effect>)
    requires |parse| == 1 && parse[0].ParseUri?
    requires Sequenced(extracted) && AllAtLeast(extracted, 1) && AllAtMost(extracted, 1)
    requires |extracted| > 0
    ensures Sequenced(parse + extracted) && AllAtMost(parse + extracted, 1)
    ensures StepsBefore(parse + extracted, 2)
    ensures (parse + extracted)[0] == parse[0]
  {
    SequencedAppend(parse, extracted, 1);
  }

  lemma ListedStepsInOrder(exported: seq<Effect>, written: seq<Effect>, listed: seq<Effect>)
    requires Sequenced(exported) && AllAtMost(exported, 1) && StepsBefore(exported, 2)
    requires |written| <= 1 && forall i :: 0 <= i < |written| ==> written[i].WriteSchema?
    requires Sequenced(listed) && AllAtLeast(listed, 3) && AllAtMost(listed, 3)
    ensures Sequenced(exported + written + listed + [SetFiles])
    ensures AllAtMost(exported + written + listed + [SetFiles], 4)
  {
    SequencedAppend(exported, written, 2);
    var withSchema := exported + written;
    assert AllAtMost(withSchema, 2) && StepsBefore(withSchema, 3);
    SequencedAppend(withSchema, listed, 3);
    var withList := withSchema + listed;
    assert AllAtMost(withList, 3) && StepsBefore(withList, 4);
    SequencedAppend(withList, [SetFiles], 4);
  }

  /** The whole transaction runs its steps in their fixed order, each at most
      once, starting with the URI decomposition and deleting nothing. */
  lemma TransactionStepsInOrder(u: Utils, config: PluginTask)
    ensures var r := Transaction(u, config);
      && Sequenced(r.trace) && AllAtMost(r.trace, 5)
      && |r.trace| > 0 && r.trace[0] == ParseUri(config.gcsUri)
  {
    var r := Transaction(u, config);
    var processed := ProcessTransactionAndSetTask(u, config);
    ProcessedStepsInOrder(u, config);
    if r.outcome.Completed? {
      var resumed := Resume(r.outcome.taskCount);
      assert r.trace == processed.trace + resumed.trace;
      SequencedAppend(processed.trace, resumed.trace, 5);
    } else {
      assert r.trace == processed.trace;
    }
  }

  /** The transaction completes exactly when the URI decomposes, the export
      yields a schema and the listing yields a list; the runner is invoked
      exactly when it completes. */
  lemma TransactionCompletes(u: Utils, config: PluginTask)
    ensures var r := Transaction(u, config);
      var located := Located(u, config);
      r.outcome.Completed? <==>
        && located.gcsLocation.Some?
        && u.extractBigqueryToGcs(located).Exported?
        && u.getFileListFromGcs(located).Listed?
    ensures var r := Transaction(u, config);
      Has(r.trace, RunKind) <==> r.outcome.Completed?
  {
    RunIffCompleted(u, config);
  }

  /** The runner effect appears exactly in a completed transaction. */
  lemma RunIffCompleted(u: Utils, config: PluginTask)
    ensures var r := Transaction(u, config);
      Has(r.trace, RunKind) <==> r.outcome.Completed?
  {
    if Transaction(u, config).outcome.Completed? {
      CompletedTransaction(u, config);
    } else {
      ProcessedStepsInOrder(u, config);
      EarlyTraceRunsNothing(ProcessTransactionAndSetTask(u, config).trace, 4);
    }
  }

  /** A completed transaction stores the listed files, counts one task per
      file, invokes the runner last with that count, returns an empty diff,
      and has exported, listed and stored the list before. */
  lemma CompletedTransaction(u: Utils, config: PluginTask)
    requires Transaction(u, config).outcome.Completed?
    ensures var r := Transaction(u, config);
      var files := u.getFileListFromGcs(Located(u, config)).files;
      && u.getFileListFromGcs(Located(u, config)).Listed?
      && r.task.files == Some(files)
      && r.outcome.taskCount == |files|
      && r.trace[|r.trace| - 1] == Run(|files|)
      && r.outcome.diff.entries == map[]
      && Has(r.trace, ExtractKind) && Has(r.trace, ListKind) && Has(r.trace, SetFilesKind)
  {
    var r := Transaction(u, config);
    var located := Located(u, config);
    var extracted := ExtractBigqueryToGcs(u, located);
    var written := WriteSchemaFileIfSpecified(extracted.schema.value, located);
    var listed := ListFilesOfGcs(u, located);
    var n := |listed.files.value|;
    var exported := [ParseUri(config.gcsUri), Extract];
    assert r.trace == exported + written + listed.trace + [SetFiles] + [Run(n)];
    assert r.trace[1] == Extract;
    assert r.trace[|r.trace| - 2] == SetFiles;
    assert r.trace[2 + |written|] == List;
  }

  /** The schema side file is written exactly when a path is configured and
      the export produced a schema, at most once, with the configured
      (possibly absent) file type and the exported schema. */
  lemma SchemaWrittenIffConfigured(u: Utils, config: PluginTask)
    ensures var r := Transaction(u, config);
      var located := Located(u, config);
      Has(r.trace, WriteSchemaKind) <==>
        && located.gcsLocation.Some?
        && u.extractBigqueryToGcs(located).Exported?
        && config.tempSchemaFilePath.Some?
    ensures var r := Transaction(u, config);
      var located := Located(u, config);
      forall i :: 0 <= i < |r.trace| && r.trace[i].WriteSchema? ==>
        r.trace[i] == WriteSchema(u.extractBigqueryToGcs(located).schema,
                                  config.tempSchemaFileType, config.tempSchemaFilePath.value)
    ensures AtMostOnce(Transaction(u, config).trace, WriteSchemaKind)
  {
    var r := Transaction(u, config);
    var p := ProcessTransactionAndSetTask(u, config);
    TransactionStepsInOrder(u, config);
    SequencedStepsOnce(r.trace, WriteSchemaKind);
    ProcessedWritesSchema(u, config);
    if r.outcome.Completed? {
      var run := [Run(r.outcome.taskCount)];
      assert r.trace == p.trace + run;
      HasAppend(p.trace, run, WriteSchemaKind);
      assert !Has(run, WriteSchemaKind);
    } else {
      assert r.trace == p.trace;
    }
  }

  /** The schema-file part of `SchemaWrittenIffConfigured`, up to storing the
      file list. */
  lemma ProcessedWritesSchema(u: Utils, task: PluginTask)
    ensures var p := ProcessTransactionAndSetTask(u, task);
      var located := Located(u, task);
      && (Has(p.trace, WriteSchemaKind) <==>
           && located.gcsLocation.Some?
           && u.extractBigqueryToGcs(located).Exported?
           && task.tempSchemaFilePath.Some?)
      && forall i :: 0 <= i < |p.trace| && p.trace[i].WriteSchema? ==>
           p.trace[i] == WriteSchema(u.extractBigqueryToGcs(located).schema,
                                     task.tempSchemaFileType, task.tempSchemaFilePath.value)
  {
    var located := Located(u, task);
    if located.gcsLocation.Some? && u.extractBigqueryToGcs(located).Exported? {
      ProcessedWithSchema(u, task);
    } else {
      ProcessedWithoutSchema(u, task);
    }
  }

  lemma ProcessedWithoutSchema(u: Utils, task: PluginTask)
    requires var located := Located(u, task);
      located.gcsLocation.None? || !u.extractBigqueryToGcs(located).Exported?
    ensures var p := ProcessTransactionAndSetTask(u, task);
      forall i :: 0 <= i < |p.trace| ==> !p.trace[i].WriteSchema?
  {
    var located := Located(u, task);
    if located.gcsLocation.Some? {
      var extracted := ExtractBigqueryToGcs(u, located);
      assert AllAtMost(extracted.trace, 1);
    }
  }

  lemma ProcessedWithSchema(u: Utils, task: PluginTask)
    requires var located := Located(u, task);
      located.gcsLocation.Some? && u.extractBigqueryToGcs(located).Exported?
    ensures var p := ProcessTransactionAndSetTask(u, task);
      && (Has(p.trace, WriteSchemaKind) <==> task.tempSchemaFilePath.Some?)
      && forall i :: 0 <= i < |p.trace| && p.trace[i].WriteSchema? ==>
           p.trace[i] == WriteSchema(u.extractBigqueryToGcs(Located(u, task)).schema,
                                     task.tempSchemaFileType, task.tempSchemaFilePath.value)
  {
    var p := ProcessTransactionAndSetTask(u, task);
    var located := Located(u, task);
    var schema := u.extractBigqueryToGcs(located).schema;
    var exported := [ParseUri(task.gcsUri), Extract];
    var written := WriteSchemaFileIfSpecified(schema, located);
    var listed := ListFilesOfGcs(u, located).trace;
    assert AllAtLeast(listed, 3);
    assert p.trace == exported + written + listed + [SetFiles];
    if written != [] {
      assert p.trace[2] == written[0];
    }
  }

  /** A failed export stops the transaction before the schema file, the
      listing, the file list and the runner: only the URI decomposition, the
      export and, for a caught exception, its error log happen. */
  lemma ExportFailureStopsBeforeListing(u: Utils, config: PluginTask)
    requires Located(u, config).gcsLocation.Some?
    requires !u.extractBigqueryToGcs(Located(u, config)).Exported?
    ensures var r := Transaction(u, config);
      && r.outcome == Aborted(NullSchema)
      && r.task.files == config.files
      && !Has(r.trace, WriteSchemaKind) && !Has(r.trace, ListKind)
      && !Has(r.trace, SetFilesKind) && !Has(r.trace, RunKind)
      && r.trace[|r.trace| - 1] == (match u.extractBigqueryToGcs(Located(u, config))
           case ExportIoError => LogError(BigqueryIo)
           case ExportInterrupted => LogError(BigqueryJob)
           case _ => Extract)
  {
    var r := Transaction(u, config);
    TransactionStepsInOrder(u, config);
    var extracted := ExtractBigqueryToGcs(u, Located(u, config));
    assert r.trace == [ParseUri(config.gcsUri)] + extracted.trace;
  }

  /** A failed or null listing stores a null file list, which aborts the
      transaction before the runner is invoked; only a failed one is logged. */
  lemma ListFailureAbortsBeforeRun(u: Utils, config: PluginTask)
    requires Located(u, config).gcsLocation.Some?
    requires u.extractBigqueryToGcs(Located(u, config)).Exported?
    requires !u.getFileListFromGcs(Located(u, config)).Listed?
    ensures var r := Transaction(u, config);
      && r.outcome == Aborted(NullFileList)
      && r.task.files.None?
      && !Has(r.trace, RunKind)
      && r.trace[|r.trace| - 2] ==
           (if u.getFileListFromGcs(Located(u, config)).ListIoError? then LogError(GcsIo) else List)
      && r.trace[|r.trace| - 1] == SetFiles
  {
    var r := Transaction(u, config);
    assert !Has(r.trace, RunKind) by {
      TransactionCompletes(u, config);
    }
  }

  /** A GCS URI that cannot be decomposed stops the transaction before the
      export is submitted. */
  lemma UnparsableUriStopsBeforeExport(u: Utils, config: PluginTask)
    requires u.parseGcsUri(config.gcsUri).None?
    ensures var r := Transaction(u, config);
      r.outcome == Aborted(UnparsableGcsUri) && r.trace == [ParseUri(config.gcsUri)]
  {
  }
}

=== FILE: wrappers.dfy ===
/** Wrappers used across the model: `Option` stands for a
    Java reference that may be null, `Result` for a call that may throw. */
module Wrappers {

  datatype Option<+T> = None | Some(value: T)

  datatype Result<+R, +E> = Success(value: R) | Failure(error: E)
}
